=== FILE: README.md ===
# Extra-P data preparation, modelled in Dafny

This project models the data-preparation core of Extra-P, a tool that fits
performance models to measurements taken at several parameter settings. It
covers four parts:

- **Call-tree reconstruction** in the Cube file reader. A call tree arrives as
  a newline-separated listing in which leading `-` characters give a node's
  depth. `fix_call_tree` and `construct_parent` turn every line into a
  flattened path `root->child->leaf`. The reader also cuts the parameter
  part out of a run directory name such as `app.p64.r1`.
- **Measurement summary statistics**. A `Measurement` reduces its samples to
  a median, mean, minimum and maximum. `value` selects the median or the
  mean. The setters overwrite one statistic. Equality compares only some
  fields.
- **Metric identity**. Ids come from a global counter. Equality and hashing
  use the name only.
- **Hardware-counter aggregation**. `accumulate_counter_data` sums the means
  of all sequences of each of eleven PAPI counters, position by position.
  `accumulate_callpath_data` groups the measurement sequences by call path.

Modules:

| file | module | contents |
|---|---|---|
| wrappers.dfy | `Wrappers` | `Option`, `Result` and the Python exceptions the core can raise |
| pystr.dfy | `PyStr` | the Python `str` and `list` operations the reader uses, with Python's semantics |
| call_tree.dfy | `CallTree` | `construct_parent`, `fix_call_tree` and the run directory slicing |
| metrics.dfy | `Metrics` | `Metric` with an explicit id counter |
| statistics.dfy | `Statistics` | sort, median, mean, minimum and maximum over exact reals |
| measurements.dfy | `Measurements` | `Measurement` construction, `value`, the setters and `==` |
| hardware_counter.dfy | `HardwareCounter` | `accumulate_counter_data` and `accumulate_callpath_data` |

Python's exceptions are values: every operation that can raise returns a
`Result` whose error names the exception (`ValueError`, `IndexError`,
`AttributeError`, `RecursionError`).

### How construct_parent is modelled

`construct_parent` searches backwards from line `id` for the nearest line one
level up. When no such line exists, the search result stays at index `-1`,
which in Python names the last line of the listing.

The function then recurses with the depth of the line it found, but with the
original `id`. So for a fixed listing and `id`, the course of the recursion
depends only on the depth:

- Every parent the search finds is one level shallower.
- Only the `-1` fallback can make the depth grow again.
- Once the fallback has been taken twice, the depths repeat forever, and
  Python raises `RecursionError`.

`ConstructParent` carries a flag recording whether the fallback has been
taken once. This makes the recursion terminate and gives exactly the
source's result on every input, including malformed ones.

A listing is well-formed (`WellFormed`) when every line below the top level
has an earlier line exactly one level up. On such listings the fallback is
never taken, and the paths have the expected shape (`WellFormedPath`).

## Model

| member | source | states |
|---|---|---|
| PyStr.JoinSplit | src/fileio/cube_file_reader2.py:55 | Splitting at newlines loses nothing: joining the pieces again gives back the input. |
| PyStr.RemoveFirst | src/fileio/cube_file_reader2.py:56 | `list.remove` raises ValueError exactly when the item is absent; otherwise it deletes only the first occurrence and keeps the rest in order. |
| CallTree.NearestAtDepth | src/fileio/cube_file_reader2.py:33-42 | The backward search finds the largest index below `id` at the wanted depth, or reports that no earlier line has that depth. |
| CallTree.ParentIndexIsNearest | src/fileio/cube_file_reader2.py:33-43 | The parent taken is the nearest earlier line one level up; when there is none, it is the last line of the listing (index -1). |
| CallTree.ConstructParent | src/fileio/cube_file_reader2.py:32-51 | A top-level parent is returned as it is; a deeper parent yields a path ending in `->` and the parent's dash-free name; every result is a top-level line or begins with one followed by `->`; the only failure is RecursionError. |
| CallTree.PathOf | src/fileio/cube_file_reader2.py:60-69 | A line without `-` (including an empty line) is emitted unchanged; any other line becomes a path ending in `->` and its dash-free name that begins with a top-level line followed by `->`. |
| CallTree.PathsUpTo | src/fileio/cube_file_reader2.py:57-71 | The loop succeeds exactly when every line converts, and then emits one path per line, in input order. |
| CallTree.Lines | src/fileio/cube_file_reader2.py:55-56 | The working lines are the newline pieces with only the first empty piece removed; there are as many as the input has newlines. |
| CallTree.FixCallTree | src/fileio/cube_file_reader2.py:54-71 | A listing without an empty line fails with ValueError; otherwise it fails only with RecursionError, and on success there is one output per remaining line, roots unchanged and deeper lines ending with their names. |
| CallTree.JoinPathDepth | src/fileio/cube_file_reader2.py:50 | A path joined with `->` from dash-free names contains one `-` per separator. |
| CallTree.WellFormedParent | src/fileio/cube_file_reader2.py:36-51 | In a well-formed listing, construct_parent never falls back to the last line; the parent path of a depth-d line joins d dash-free names, starting at a top-level line above it, and name t is the name of the nearest line at depth t above it (the ancestor construct_parent picks at that level). |
| CallTree.WellFormedPath | src/fileio/cube_file_reader2.py:59-69 | In a well-formed listing, a depth-d line yields a path of d + 1 names, hence exactly d `->` separators; the path starts at a top-level line and ends with the line's own name, and for every t < d name t is the name of the nearest line at depth t above it. |
| CallTree.WellFormedListingConverts | src/fileio/cube_file_reader2.py:54-71 | A well-formed listing that contains an empty line converts without error. |
| CallTree.ParameterPart | src/fileio/cube_file_reader2.py:94-97 | The parameter part of a run directory name is a piece of that name and never contains `.r`. |
| CallTree.ParameterPartOfRunDirectory | src/fileio/cube_file_reader2.py:94-97 | For `<prefix>.<parameters>.r<repetition>` with a dot-free prefix, the result is exactly `<parameters>`. |
| CallTree.ParameterPartWithoutRepetition | src/fileio/cube_file_reader2.py:94-97 | When `.r` is missing after the first `.`, `find` yields -1 and only the last character of the remainder is dropped; an empty remainder (`app.`) gives the empty string. |
| CallTree.ParameterPartWithoutDot | src/fileio/cube_file_reader2.py:94-97 | A name without any `.` is kept whole by the first cut and then loses only its last character; the empty name gives the empty string. |
| Metrics.NewMetric | src/entities/metric.py:24-29 | A new Metric keeps its name and takes exactly the counter's current value as id; the counter advances by one. |
| Metrics.NewMetricIsFresh | src/entities/metric.py:22-29 | A new Metric's id exceeds every id issued before from the same counter; ids stay increasing in order of construction. |
| Metrics.NewMetrics | src/entities/metric.py:22-29 | Constructing Metrics one after another keeps their names and gives consecutive ids starting at the counter's value, so strictly increasing; the counter advances by the number of Metrics. |
| Metrics.IdsFromInitialCounter | src/entities/metric.py:19-29 | Metrics constructed from the fresh `itertools.count()` get ids 0, 1, 2, ... in order, and the counter then stands at their count. |
| Metrics.EqualsIsNameEquality | src/entities/metric.py:41-44 | Two Metrics are equal exactly when their names agree, whatever their ids; this is an equivalence, and nothing that is not a Metric equals one. |
| Metrics.EqualMetricsHashEqual | src/entities/metric.py:38-39 | Equal Metrics have equal hashes, under any string hash. |
| Metrics.StrOfNewMetric | src/entities/metric.py:28-47 | `str` of a new Metric is its name; two Metrics built from one name get different ids yet compare equal. |
| Statistics.Sort | extrap/entities/measurement.py:33 | The sorted copy is sorted and holds exactly the samples (same multiset). |
| Statistics.Min | extrap/entities/measurement.py:35 | The minimum is one of the samples and is at most every sample. |
| Statistics.Max | extrap/entities/measurement.py:36 | The maximum is one of the samples and is at least every sample. |
| Statistics.Mean | extrap/entities/measurement.py:34 | The mean lies between the minimum and the maximum. |
| Statistics.Median | extrap/entities/measurement.py:33 | The median lies between the minimum and the maximum. |
| Statistics.MedianSplitsSamples | extrap/entities/measurement.py:33 | At least half of the samples are at most the median, and at least half are at least it. |
| Statistics.ConstantSamples | extrap/entities/measurement.py:33-36 | With identical samples, median, mean, minimum and maximum all equal that value. |
| Measurements.NewMeasurement | extrap/entities/measurement.py:23-37 | Without values, only coordinate, call path and metric are set. An empty sample list raises ValueError. Otherwise min ≤ median ≤ max and min ≤ mean ≤ max, and min and max are samples bounding all the others. |
| Measurements.Value | extrap/entities/measurement.py:39-40 | `value(True)` is the median and `value(False)` the mean; a statistic never set raises AttributeError. |
| Measurements.ValueOfNewMeasurement | extrap/entities/measurement.py:33-40 | A Measurement built from samples reports their median and mean; with identical samples, every statistic is that sample. |
| Measurements.SetValueMean | extrap/entities/measurement.py:78-82 | Only the mean changes, to the given value. |
| Measurements.SetValueMedian | extrap/entities/measurement.py:85-89 | Only the median changes, to the given value. |
| Measurements.SettersAndValue | extrap/entities/measurement.py:39-89 | After a setter, `value` reports the new value for that statistic and is unchanged for the other. |
| Measurements.Equals | extrap/entities/measurement.py:94-104 | Another class is never equal and the same object always is; equality implies equal coordinate, metric name, call path, mean and median. AttributeError is raised when, and only when, coordinate, metric name and call path agree and then a mean is missing on either side, or the means are set and equal and a median is missing on either side; a difference in an earlier field gives False without reading the statistics. |
| Measurements.EqualsProperties | extrap/entities/measurement.py:94-104 | Equality is reflexive and symmetric, and ignores minimum, maximum and the metric's id. |
| Measurements.EqualsWithStatistics | extrap/entities/measurement.py:100-104 | With all statistics set, two Measurements are equal exactly when coordinate, metric name, call path, mean and median agree. |
| HardwareCounter.AddMeans | extrap/modelers/single_parameter/hardware_counter_modeler.py:60 | The zipped sum is cut to the shorter operand, and entry i is the total plus the i-th mean; a missing mean among the zipped pairs raises AttributeError. |
| HardwareCounter.AddSequence | extrap/modelers/single_parameter/hardware_counter_modeler.py:55-60 | An empty sequence raises IndexError; a sequence of a metric outside the table leaves it unchanged; otherwise only that counter's list changes, and it never grows. |
| HardwareCounter.AccumulateCounterData | extrap/modelers/single_parameter/hardware_counter_modeler.py:38-69 | An empty input raises IndexError; the result holds exactly the eleven PAPI counters, each list at most as long as the first sequence. |
| HardwareCounter.AccumulateSums | extrap/modelers/single_parameter/hardware_counter_modeler.py:55-60 | Over sequences no shorter than the totals, entry j of each counter grows by the sum of the j-th means of that counter's sequences. |
| HardwareCounter.CounterTotals | extrap/modelers/single_parameter/hardware_counter_modeler.py:38-69 | For equal-length sequences, entry j of each counter is the sum of the j-th means of its sequences, and a counter without sequences stays all zeros. |
| HardwareCounter.AccumulateLengths | extrap/modelers/single_parameter/hardware_counter_modeler.py:39-60 | Each counter's list ends as long as the shortest of its start length and the lengths of that counter's sequences. |
| HardwareCounter.AccumulateCallpathData | extrap/modelers/single_parameter/hardware_counter_modeler.py:74-82 | Grouping fails with IndexError exactly when some sequence is empty. |
| HardwareCounter.GroupAllCorrect | extrap/modelers/single_parameter/hardware_counter_modeler.py:75-81 | The group keys are the call paths in order of first occurrence; each group holds exactly its call path's sequences, in input order; group sizes add up to the input length. |
| HardwareCounter.CallpathGrouping | extrap/modelers/single_parameter/hardware_counter_modeler.py:74-82 | Every input sequence lies in the one group of its call path; keys are distinct and in order of first occurrence; group sizes add up to the input length. |

## Left out

- The rest of `read_cube_file` (src/fileio/cube_file_reader2.py:75-224) is not modelled. That covers the directory listing, the pycube parser, numpy reductions over parsed data, printing, and the regex and `float` parsing of parameter values (lines 98-108). These are I/O and foreign code; only the slicing at lines 94-97 is modelled.
- `HardwareCounterModeler.model` is left out because it hands all fitting to a `SingleParameterModeler` that is not part of this model. `determine_counter_weights` and `create_function_weight_mapping` are left out because they are empty stubs.
- `Measurement.std` is left out because it needs a square root over floating point. The marshmallow `MeasurementSchema` (serialisation), `__repr__` and the deprecated getters are left out too.
- The `@deprecated` decorator on `set_value_mean` and `set_value_median` (extrap/entities/measurement.py:77 and :84) only emits a deprecation warning before the setter runs; the warning is an I/O side effect and is not modelled.
- The GUI widget, `setup.py` and the JSON-reader test are outside the core.
- extrap's `Metric` and `Callpath` get their equality from `NamedEntityWithTags`, which is not part of this model. Both are modelled as equality of names: a Measurement's metric is the `Metric` of src/entities/metric.py, and `Callpath` is a record holding its name. `Coordinate` equality is modelled as equality of the value sequences.
- Floating point is not modelled: samples, means and sums are exact reals, so NaN, rounding and `[0] * n` being an integer list do not arise.
- Python's string hash is salted per process, so `Metrics.Hash` takes it as a parameter.
- Python's object identity (`self is other`) is the `identical` argument of `Measurements.Equals`. It may only be set when both operands are the same value.
- `Measurements.NewMeasurement`: numpy returns NaN for the median and mean of an empty array before `np.min` raises. The model reports only the ValueError, because no Measurement is built in that case.
- `CallTree.ConstructParent`: Python's finite recursion limit is not modelled. A legitimately deep well-formed tree (depth around 1000) that Python would reject with RecursionError converts in the model.
- `HardwareCounter.MetricName` reads the metric's name where the source calls `str(metric)`. That call is the name for the `Metric` of src/entities/metric.py; for extrap's Metric, `str` is not part of this model.
- `accumulate_callpath_data` returns a Python dict; it is modelled as a sequence of groups in insertion order, which is the dict's iteration order.

=== FILE: call_tree.dfy ===
/** The call-tree reconstruction of the Cube file reader
    (src/fileio/cube_file_reader2.py).

    A call tree arrives as a newline-separated listing in which the depth of a
    node is written as leading '-' characters:

        main
        -solve
        --kernel

    `fix_call_tree` turns each line into the flattened path of its node,
    `main`, `main->solve`, `main->solve->kernel`, by searching backwards for the
    line one level up (`construct_parent`). The reader also slices the
    parameter part out of a run directory name, modelled at the end. */
module CallTree {
  import opened Wrappers
  import opened PyStr

  /** The depth of a listing line: how many '-' characters it holds. */
  function Depth(line: string): nat
  {
    Count(line, '-')
  }

  /** The node name of a listing line: the line with every '-' removed. */
  function Name(line: string): string
  {
    Remove(line, '-')
  }

  /** `suffix` ends `s`. */
  predicate EndsWith(s: string, suffix: string)
  {
    |suffix| <= |s| && s[|s| - |suffix|..] == suffix
  }

  /** The backward search of construct_parent: the largest index below `id`
      whose line has depth `d`, if any. */
  function NearestAtDepth(lines: seq<string>, d: int, id: nat): (r: Option<nat>)
    requires id <= |lines|
    ensures r.Some? ==> r.value < id && Depth(lines[r.value]) == d
    ensures r.Some? ==> forall k :: r.value < k < id ==> Depth(lines[k]) != d
    ensures r.None? ==> forall k :: 0 <= k < id ==> Depth(lines[k]) != d
  {
    if id == 0 then None
    else if Depth(lines[id - 1]) == d then Some(id - 1)
    else NearestAtDepth(lines, d, id - 1)
  }

  /** The index of the line construct_parent takes as the parent of a line of
      depth `occurrences` at index `id`. */
  function ParentIndex(lines: seq<string>, occurrences: nat, id: nat): (j: nat)
    requires 0 < |lines| && id <= |lines|
    ensures j < |lines|
  {
    match NearestAtDepth(lines, occurrences - 1, id)
    case Some(j) => j
    case None => |lines| - 1
  }

  /** The parent construct_parent takes is the nearest earlier line one level
      up, or, when there is none, index -1 of the Python list: the last line. */
  lemma ParentIndexIsNearest(lines: seq<string>, occurrences: nat, id: nat)
    requires 0 < |lines| && id <= |lines|
    ensures var j := ParentIndex(lines, occurrences, id);
            (exists k :: 0 <= k < id && Depth(lines[k]) == occurrences - 1) ==>
              && j < id
              && Depth(lines[j]) == occurrences - 1
              && forall k :: j < k < id ==> Depth(lines[k]) != occurrences - 1
    ensures (forall k :: 0 <= k < id ==> Depth(lines[k]) != occurrences - 1) ==>
              ParentIndex(lines, occurrences, id) == |lines| - 1
  {
  }

  /** `path` is a top-level line of the listing, or such a line followed by
      "->" and more. */
  predicate StartsAtRoot(lines: seq<string>, path: string)
  {
    exists k :: 0 <= k < |lines| && Depth(lines[k]) == 0 && (path == lines[k] || lines[k] + "->" <= path)
  }

  /** `path + "->" + name`: the path of a child called `name`. */
  function Child(path: string, name: string): (r: string)
    ensures EndsWith(r, "->" + name)
  {
    assert path + "->" + name == path + ("->" + name);
    path + "->" + name
  }

  lemma ChildStartsAtRoot(lines: seq<string>, path: string, name: string)
    requires StartsAtRoot(lines, path)
    ensures StartsAtRoot(lines, Child(path, name))
  {
    var k :| 0 <= k < |lines| && Depth(lines[k]) == 0 && (path == lines[k] || lines[k] + "->" <= path);
    var root := lines[k] + "->";
    if path == lines[k] {
      assert Child(path, name) == root + name;
    } else {
      assert Child(path, name)[..|root|] == path[..|root|];
    }
    assert root <= Child(path, name);
  }

  /** `construct_parent(lines, occurrences, id)`: the flattened path of the
      parent of a line of depth `occurrences` at index `id`.

      The recursion searches again from the same `id` with the depth of the
      parent it found, so for fixed `lines` and `id` its course depends only on
      `occurrences`. Each found parent lowers that depth; only the index -1
      fallback can raise it, to the depth of the last line. Once the fallback
      has been taken a second time, the depths repeat and Python recurses
      until it raises RecursionError. `fellBack` records that the fallback has
      been taken once; the Python function is `ConstructParent(.., false)`. */
  function ConstructParent(lines: seq<string>, occurrences: nat, id: nat, fellBack: bool)
    : (r: Result<string>)
    requires 0 < |lines| && id <= |lines|
    ensures r.Err? ==> r.error == RecursionError
    ensures r.Ok? ==> StartsAtRoot(lines, r.value)
    ensures var p := lines[ParentIndex(lines, occurrences, id)];
            Depth(p) == 0 ==> r == Ok(p)
    ensures var p := lines[ParentIndex(lines, occurrences, id)];
            Depth(p) > 0 && r.Ok? ==> EndsWith(r.value, "->" + Name(p))
    decreases if fellBack then 0 else 1, occurrences
  {
    var found := NearestAtDepth(lines, occurrences - 1, id).Some?;
    var parent := lines[ParentIndex(lines, occurrences, id)];
    if Depth(parent) == 0 then Ok(parent)
    else if !found && fellBack then Err(RecursionError)
    else
      match ConstructParent(lines, Depth(parent), id, fellBack || !found)
      case Err(e) => Err(e)
      case Ok(grand) =>
        ChildStartsAtRoot(lines, grand, Name(parent));
        Ok(Child(grand, Name(parent)))
  }

  /** The flattened path fix_call_tree emits for the line at index `i`: a line
      without '-' as it is, any other line as its parent's path, "->" and its
      name. */
  function PathOf(lines: seq<string>, i: nat): (r: Result<string>)
    requires i < |lines|
    ensures Depth(lines[i]) == 0 ==> r == Ok(lines[i])
    ensures r.Err? ==> r.error == RecursionError
    ensures Depth(lines[i]) > 0 && r.Ok? ==> EndsWith(r.value, "->" + Name(lines[i]))
    ensures r.Ok? ==> StartsAtRoot(lines, r.value)
  {
    if Depth(lines[i]) == 0 then
      Ok(lines[i])
    else
      match ConstructParent(lines, Depth(lines[i]), i, false)
      case Err(e) => Err(e)
      case Ok(parent) =>
        ChildStartsAtRoot(lines, parent, Name(lines[i]));
        Ok(Child(parent, Name(lines[i])))
  }

  /** The paths of the first `n` lines, in order; the first failing line makes
      the whole loop fail. */
  function PathsUpTo(lines: seq<string>, n: nat): (r: Result<seq<string>>)
    requires n <= |lines|
    ensures r.Ok? <==> forall i :: 0 <= i < n ==> PathOf(lines, i).Ok?
    ensures r.Err? ==> r.error == RecursionError
    ensures r.Ok? ==> |r.value| == n
    ensures r.Ok? ==> forall i :: 0 <= i < n ==> PathOf(lines, i) == Ok(r.value[i])
  {
    if n == 0 then Ok([])
    else
      match PathsUpTo(lines, n - 1)
      case Err(e) => Err(e)
      case Ok(paths) =>
        match PathOf(lines, n - 1)
        case Err(e) => Err(e)
        case Ok(p) =>
          var r := paths + [p];
          assert forall i :: 0 <= i < n - 1 ==> r[i] == paths[i];
          assert r[n - 1] == p;
          Ok(r)
  }

  /** The listing lines fix_call_tree works on: the input split at newlines,
      with the first empty line removed. */
  function Lines(calltree: string): (lines: seq<string>)
    requires "" in Split(calltree, '\n')
    ensures |lines| == Count(calltree, '\n')
    ensures RemovedFirst(Split(calltree, '\n'), "", lines)
  {
    RemoveFirst(Split(calltree, '\n'), "").value
  }

  /** `fix_call_tree(calltree)`: one flattened path per listing line. A listing
      with no empty line at all makes `list.remove` raise ValueError. */
  function FixCallTree(calltree: string): (r: Result<seq<string>>)
    ensures r == Err(ValueError) <==> "" !in Split(calltree, '\n')
    ensures r.Err? ==> r.error in {ValueError, RecursionError}
    ensures r.Ok? ==> |r.value| == Count(calltree, '\n')
    ensures r.Ok? ==> forall i :: 0 <= i < |r.value| ==> PathOf(Lines(calltree), i) == Ok(r.value[i])
    ensures r.Ok? ==> forall i :: 0 <= i < |r.value| && Depth(Lines(calltree)[i]) == 0 ==>
                        r.value[i] == Lines(calltree)[i]
    ensures r.Ok? ==> forall i :: 0 <= i < |r.value| && Depth(Lines(calltree)[i]) > 0 ==>
                        EndsWith(r.value[i], "->" + Name(Lines(calltree)[i]))
  {
    match RemoveFirst(Split(calltree, '\n'), "")
    case Err(e) => Err(e)
    case Ok(lines) => PathsUpTo(lines, |lines|)
  }

  /** A listing in which every line below the top level has an earlier line
      exactly one level up. */
  predicate WellFormed(lines: seq<string>)
  {
    forall i {:trigger HasLineAbove(lines, i)} :: 0 <= i < |lines| ==> HasLineAbove(lines, i)
  }

  /** The line at index `i` is top-level or has an earlier line one level up. */
  predicate HasLineAbove(lines: seq<string>, i: nat)
    requires i < |lines|
  {
    Depth(lines[i]) > 0 ==> exists j :: 0 <= j < i && Depth(lines[j]) == Depth(lines[i]) - 1
  }

  /** `s0->s1->...->sn` */
  function JoinPath(segments: seq<string>): string
    requires |segments| > 0
  {
    if |segments| == 1 then segments[0]
    else Child(JoinPath(segments[..|segments| - 1]), segments[|segments| - 1])
  }

  /** A path joined from dash-free segments holds one '-' per separator. */
  lemma {:induction false} JoinPathDepth(segments: seq<string>)
    requires |segments| > 0
    requires forall i :: 0 <= i < |segments| ==> '-' !in segments[i]
    ensures Depth(JoinPath(segments)) == |segments| - 1
  {
    if |segments| > 1 {
      var init := segments[..|segments| - 1];
      var last := segments[|segments| - 1];
      JoinPathDepth(init);
      CountConcat(JoinPath(init), "->", '-');
      CountConcat(JoinPath(init) + "->", last, '-');
      assert Count("->", '-') == 1;
    }
  }

  /** One step of construct_parent when the search finds a top-level parent. */
  lemma ConstructParentFoundRoot(lines: seq<string>, id: nat, fellBack: bool)
    requires 0 < |lines| && id <= |lines|
    requires NearestAtDepth(lines, 0, id).Some?
    ensures ConstructParent(lines, 1, id, fellBack) == Ok(lines[NearestAtDepth(lines, 0, id).value])
  {
  }

  /** One step of construct_parent when the search finds a parent below the
      top level. */
  lemma ConstructParentFound(lines: seq<string>, occurrences: nat, id: nat, fellBack: bool)
    requires 0 < |lines| && id <= |lines|
    requires NearestAtDepth(lines, occurrences - 1, id).Some?
    requires occurrences > 1
    ensures var parent := lines[NearestAtDepth(lines, occurrences - 1, id).value];
            ConstructParent(lines, occurrences, id, fellBack)
            == match ConstructParent(lines, occurrences - 1, id, fellBack)
               case Err(e) => Err(e)
               case Ok(grand) => Ok(Child(grand, Name(parent)))
  {
  }

  /** In a well-formed listing, a line one level up exists above any line that
      has one level up above it. */
  lemma WellFormedGrandparent(lines: seq<string>, d: nat, id: nat)
    requires id <= |lines| && WellFormed(lines) && d > 0
    requires NearestAtDepth(lines, d, id).Some?
    ensures NearestAtDepth(lines, d - 1, id).Some?
  {
    var j := NearestAtDepth(lines, d, id).value;
    assert HasLineAbove(lines, j);
    var k :| 0 <= k < j && Depth(lines[k]) == Depth(lines[j]) - 1;
    assert Depth(lines[k]) == d - 1;
  }

  /** Segment `t` of a path names the nearest line at depth `t` above `id`:
      the ancestors construct_parent picks, one per level. */
  predicate AncestorNames(lines: seq<string>, id: nat, segments: seq<string>)
    requires id <= |lines|
  {
    if |segments| == 0 then true
    else
      var t := |segments| - 1;
      && AncestorNames(lines, id, segments[..t])
      && NearestAtDepth(lines, t, id).Some?
      && segments[t] == Name(lines[NearestAtDepth(lines, t, id).value])
  }

  /** AncestorNames, position by position. */
  lemma {:induction false} AncestorNameAt(lines: seq<string>, id: nat, segments: seq<string>, t: nat)
    requires id <= |lines| && AncestorNames(lines, id, segments) && t < |segments|
    ensures NearestAtDepth(lines, t, id).Some?
    ensures segments[t] == Name(lines[NearestAtDepth(lines, t, id).value])
  {
    var n := |segments| - 1;
    if t < n {
      AncestorNameAt(lines, id, segments[..n], t);
    }
  }

  /** In a well-formed listing, construct_parent never falls back to the last
      line and so terminates; the parent path of a depth-`occurrences` line
      consists of `occurrences` dash-free segments starting at a top-level line
      above `id`, segment `t` naming the nearest line at depth `t` above `id`. */
  lemma {:induction false} WellFormedParent(lines: seq<string>, occurrences: nat, id: nat, fellBack: bool)
    returns (segments: seq<string>)
    requires 0 < |lines| && id <= |lines| && WellFormed(lines)
    requires occurrences >= 1
    requires NearestAtDepth(lines, occurrences - 1, id).Some?
    ensures |segments| == occurrences
    ensures forall i :: 0 <= i < |segments| ==> '-' !in segments[i]
    ensures exists k :: 0 <= k < id && Depth(lines[k]) == 0 && segments[0] == lines[k]
    ensures ConstructParent(lines, occurrences, id, fellBack) == Ok(JoinPath(segments))
    ensures AncestorNames(lines, id, segments)
    decreases occurrences
  {
    var j := NearestAtDepth(lines, occurrences - 1, id).value;
    if occurrences == 1 {
      ConstructParentFoundRoot(lines, id, fellBack);
      NameOfRoot(lines[j]);
      segments := [lines[j]];
      assert segments[..0] == [];
    } else {
      WellFormedGrandparent(lines, occurrences - 1, id);
      var above := WellFormedParent(lines, occurrences - 1, id, fellBack);
      ConstructParentFound(lines, occurrences, id, fellBack);
      segments := above + [Name(lines[j])];
      assert segments[..|segments| - 1] == above;
    }
  }

  /** fix_call_tree's path of a line below the top level. */
  lemma PathOfChild(lines: seq<string>, i: nat)
    requires i < |lines| && Depth(lines[i]) > 0
    ensures PathOf(lines, i) == match ConstructParent(lines, Depth(lines[i]), i, false)
                                case Err(e) => Err(e)
                                case Ok(p) => Ok(Child(p, Name(lines[i])))
  {
  }

  /** `segments` is the path construct_parent builds for the line at index
      `i`: d + 1 dash-free segments for a line of depth d, hence exactly d
      "->" separators, starting at a top-level line and ending with the
      line's own name; the segments before it name the line's ancestors, the
      nearest line above it at each depth. */
  predicate PathSegments(lines: seq<string>, i: nat, segments: seq<string>)
    requires i < |lines|
  {
    && |segments| == Depth(lines[i]) + 1
    && (forall k :: 0 <= k < |segments| ==> '-' !in segments[k])
    && (exists k :: 0 <= k <= i && Depth(lines[k]) == 0 && segments[0] == lines[k])
    && segments[|segments| - 1] == Name(lines[i])
    && PathOf(lines, i) == Ok(JoinPath(segments))
    && Depth(JoinPath(segments)) == Depth(lines[i])
    && AncestorNames(lines, i, segments[..|segments| - 1])
  }

  /** In a well-formed listing, every line has the path PathSegments
      describes. */
  lemma WellFormedPath(lines: seq<string>, i: nat) returns (segments: seq<string>)
    requires i < |lines| && WellFormed(lines)
    ensures |segments| == Depth(lines[i]) + 1
    ensures forall k :: 0 <= k < |segments| ==> '-' !in segments[k]
    ensures exists k :: 0 <= k <= i && Depth(lines[k]) == 0 && segments[0] == lines[k]
    ensures segments[|segments| - 1] == Name(lines[i])
    ensures PathOf(lines, i) == Ok(JoinPath(segments))
    ensures Depth(JoinPath(segments)) == Depth(lines[i])
    ensures AncestorNames(lines, i, segments[..|segments| - 1])
  {
    if Depth(lines[i]) == 0 {
      segments := WellFormedRootPath(lines, i);
    } else {
      segments := WellFormedChildPath(lines, i);
    }
    assert PathSegments(lines, i, segments);
  }

  /** WellFormedPath for a top-level line: the line on its own. */
  lemma WellFormedRootPath(lines: seq<string>, i: nat) returns (segments: seq<string>)
    requires i < |lines| && WellFormed(lines) && Depth(lines[i]) == 0
    ensures segments == [lines[i]]
    ensures PathSegments(lines, i, segments)
  {
    NameOfRoot(lines[i]);
    segments := [lines[i]];
    assert segments[..0] == [];
    assert JoinPath(segments) == lines[i];
    JoinPathDepth(segments);
  }

  /** WellFormedPath for a line below the top level: its parent's segments
      followed by its own name. */
  lemma WellFormedChildPath(lines: seq<string>, i: nat) returns (segments: seq<string>)
    requires i < |lines| && WellFormed(lines) && Depth(lines[i]) > 0
    ensures PathSegments(lines, i, segments)
  {
    var d := Depth(lines[i]);
    assert HasLineAbove(lines, i);
    var k :| 0 <= k < i && Depth(lines[k]) == d - 1;
    assert NearestAtDepth(lines, d - 1, i).Some?;
    var above := WellFormedParent(lines, d, i, false);
    PathOfChild(lines, i);
    segments := above + [Name(lines[i])];
    assert segments[..|segments| - 1] == above;
    JoinPathDepth(segments);
  }

  /** A line without '-' is its own name. */
  lemma {:induction false} NameOfRoot(line: string)
    requires '-' !in line
    ensures Name(line) == line
  {
    if |line| > 0 {
      assert '-' !in line[1..] by { assert forall x :: x in line[1..] ==> x in line; }
      NameOfRoot(line[1..]);
      assert line == [line[0]] + line[1..];
    }
  }

  /** A well-formed listing with an empty line converts without error. */
  lemma WellFormedListingConverts(calltree: string)
    requires "" in Split(calltree, '\n')
    requires WellFormed(Lines(calltree))
    ensures FixCallTree(calltree).Ok?
  {
    var lines := Lines(calltree);
    forall i | 0 <= i < |lines|
      ensures PathOf(lines, i).Ok?
    {
      var _ := WellFormedPath(lines, i);
    }
  }

  // ---------------------------------------------------------------------
  // Run directory names

  /** `name` occurs somewhere inside `s`. */
  predicate IsSubstring(name: string, s: string)
  {
    exists a :: 0 <= a <= |s| && OccursAt(s, name, a)
  }

  /** The parameter part of a run directory name (read_cube_file): everything
      after the first '.', or the whole name if it has none, cut before the
      first ".r"; when ".r" is missing, `find` yields -1 and the slice drops
      only the last character. */
  function ParameterPart(folder: string): (r: string)
    ensures forall k :: !OccursAt(r, ".r", k)
    ensures IsSubstring(r, folder)
  {
    var afterDot := SliceFrom(folder, Find(folder, ".") + 1);
    var cut := Find(afterDot, ".r");
    var r := SliceTo(afterDot, cut);
    assert forall k :: OccursAt(r, ".r", k) ==> OccursAt(afterDot, ".r", k) by {
      forall k | OccursAt(r, ".r", k)
        ensures OccursAt(afterDot, ".r", k)
      {
        assert afterDot[k..k + 2] == r[k..k + 2];
      }
    }
    var a := |folder| - |afterDot|;
    assert folder[a..a + |r|] == r;
    assert OccursAt(folder, r, a);
    r
  }

  /** The usual run directory `<prefix>.<parameters>.r<repetition>` yields
      `<parameters>`. */
  lemma ParameterPartOfRunDirectory(prefix: string, parameters: string, repetition: string)
    requires '.' !in prefix
    requires forall k :: !OccursAt(parameters, ".r", k)
    ensures ParameterPart(prefix + "." + parameters + ".r" + repetition) == parameters
  {
    var folder := prefix + "." + parameters + ".r" + repetition;
    var rest := parameters + ".r" + repetition;
    assert OccursAt(folder, ".", |prefix|);
    forall k | k < |prefix|
      ensures !OccursAt(folder, ".", k)
    {
      if 0 <= k {
        assert folder[k..k + 1] == [prefix[k]];
      }
    }
    assert Find(folder, ".") == |prefix|;
    assert SliceFrom(folder, |prefix| + 1) == rest;
    assert OccursAt(rest, ".r", |parameters|);
    forall k | k < |parameters|
      ensures !OccursAt(rest, ".r", k)
    {
      if 0 <= k && k + 2 <= |parameters| {
        assert rest[k..k + 2] == parameters[k..k + 2];
        assert !OccursAt(parameters, ".r", k);
      } else if 0 <= k {
        assert k == |parameters| - 1;
        assert rest[k + 1] == '.';
        assert rest[k..k + 2][1] == rest[k + 1] == '.';
      }
    }
    assert Find(rest, ".r") == |parameters|;
  }

  /** A run directory name with a '.' but no ".r" after it keeps everything
      after the first '.' except the last character; nothing after the '.'
      gives the empty string. */
  lemma ParameterPartWithoutRepetition(prefix: string, rest: string)
    requires '.' !in prefix
    requires forall k :: !OccursAt(rest, ".r", k)
    ensures ParameterPart(prefix + "." + rest) == if |rest| == 0 then "" else rest[..|rest| - 1]
  {
    var folder := prefix + "." + rest;
    assert OccursAt(folder, ".", |prefix|);
    forall k | k < |prefix|
      ensures !OccursAt(folder, ".", k)
    {
      if 0 <= k {
        assert folder[k..k + 1] == [prefix[k]];
      }
    }
    assert Find(folder, ".") == |prefix|;
    assert SliceFrom(folder, |prefix| + 1) == rest;
  }

  /** A run directory name without any '.' loses only its last character;
      the empty name stays empty. */
  lemma ParameterPartWithoutDot(folder: string)
    requires '.' !in folder
    ensures ParameterPart(folder) == if |folder| == 0 then "" else folder[..|folder| - 1]
  {
    forall k ensures !OccursAt(folder, ".", k) {
      if 0 <= k < |folder| {
        assert folder[k..k + 1][0] == folder[k] != '.';
      }
    }
    forall k ensures !OccursAt(folder, ".r", k) {
      if 0 <= k && k + 2 <= |folder| {
        assert folder[k..k + 2][0] == folder[k] != '.';
      }
    }
  }
}

=== FILE: hardware_counter.dfy ===
/** The data preparation of the hardware-counter modeler
    (extrap/modelers/single_parameter/hardware_counter_modeler.py).

    The modeler receives one measurement sequence per (call path, metric),
    each holding one Measurement per coordinate. `accumulate_counter_data`
    sums the per-coordinate means of all sequences of each of eleven PAPI
    counters; `accumulate_callpath_data` groups the sequences by call path. */
module HardwareCounter {
  import opened Wrappers
  import opened Measurements

  /** The counters accumulate_counter_data sums, in the source's order. */
  const CounterNames: seq<string> := [
    "PAPI_TOT_INS", "PAPI_LST_INS", "PAPI_LD_INS", "PAPI_SR_INS",
    "PAPI_BR_INS", "PAPI_DP_OPS", "PAPI_VEC_DP", "PAPI_SP_OPS",
    "PAPI_VEC_SP", "PAPI_TLB_IM", "PAPI_TLB_DM"]

  /** Per counter name, one running total per coordinate. */
  type CounterData = map<string, seq<real>>

  /** `[0] * n` */
  function Zeros(n: nat): (z: seq<real>)
    ensures |z| == n
    ensures forall i :: 0 <= i < n ==> z[i] == 0.0
  {
    seq(n, _ => 0.0)
  }

  /** The table accumulate_counter_data starts from: every counter at `n` zeros. */
  function InitialCounterData(n: nat): (d: CounterData)
    ensures d.Keys == set k | k in CounterNames
    ensures forall k :: k in d ==> d[k] == Zeros(n)
  {
    map k | k in CounterNames :: Zeros(n)
  }

  /** `str(sequence[0].metric)`: the name of the metric a sequence measures. */
  function MetricName(s: seq<Measurement>): string
    requires |s| > 0
  {
    s[0].metric.name
  }

  function MinNat(a: nat, b: nat): nat
  {
    if a <= b then a else b
  }

  /** `list(map(lambda x: x[0] + x[1].mean, zip(totals, sequence)))`: the
      totals with the sequence's means added position-wise, cut to the shorter
      of the two; a mean that was never set raises AttributeError. */
  function AddMeans(totals: seq<real>, s: seq<Measurement>): (r: Result<seq<real>>)
    ensures r.Err? <==> exists i :: 0 <= i < |totals| && i < |s| && s[i].mean.None?
    ensures r.Err? ==> r.error == AttributeError
    ensures r.Ok? ==> |r.value| == MinNat(|totals|, |s|)
    ensures r.Ok? ==> forall i :: 0 <= i < |r.value| ==> r.value[i] == totals[i] + s[i].mean.value
  {
    if |totals| == 0 || |s| == 0 then Ok([])
    else if s[0].mean.None? then Err(AttributeError)
    else
      var tail := s[1..];
      match AddMeans(totals[1..], tail)
      case Err(e) =>
        var i :| 0 <= i < |totals| - 1 && i < |tail| && tail[i].mean.None?;
        assert s[i + 1] == tail[i];
        Err(e)
      case Ok(rest) =>
        var r := [totals[0] + s[0].mean.value] + rest;
        assert forall i :: 1 <= i < |s| ==> s[i] == tail[i - 1];
        assert forall i :: 1 <= i < |r| ==> r[i] == rest[i - 1];
        Ok(r)
  }

  /** One iteration of the loop of accumulate_counter_data. Reading
      `sequence[0]` of an empty sequence raises IndexError; a sequence of a
      metric outside the table leaves the table as it is. */
  function AddSequence(data: CounterData, s: seq<Measurement>): (r: Result<CounterData>)
    ensures |s| == 0 ==> r == Err(IndexError)
    ensures |s| > 0 && MetricName(s) !in data ==> r == Ok(data)
    ensures r.Ok? ==> r.value.Keys == data.Keys
    ensures r.Ok? ==> forall k :: k in data && k != MetricName(s) ==> r.value[k] == data[k]
    ensures r.Ok? ==> forall k :: k in data ==> |r.value[k]| <= |data[k]|
    ensures r.Err? ==> r.error in {IndexError, AttributeError}
  {
    if |s| == 0 then Err(IndexError)
    else
      var name := MetricName(s);
      if name !in data then Ok(data)
      else
        match AddMeans(data[name], s)
        case Err(e) => Err(e)
        case Ok(totals) => Ok(data[name := totals])
  }

  /** The loop of accumulate_counter_data over `sequences`, from `data` on. */
  function Accumulate(data: CounterData, sequences: seq<seq<Measurement>>): (r: Result<CounterData>)
    ensures r.Ok? ==> r.value.Keys == data.Keys
    ensures r.Ok? ==> forall k :: k in data ==> |r.value[k]| <= |data[k]|
    ensures (exists i :: 0 <= i < |sequences| && |sequences[i]| == 0) ==> r.Err?
    ensures r.Err? ==> r.error in {IndexError, AttributeError}
  {
    if |sequences| == 0 then Ok(data)
    else
      match AddSequence(data, sequences[0])
      case Err(e) => Err(e)
      case Ok(data') =>
        var r := Accumulate(data', sequences[1..]);
        assert forall i :: 1 <= i < |sequences| ==> sequences[i] == sequences[1..][i - 1];
        r
  }

  /** Every measurement of every sequence has its mean set. */
  predicate HasMeans(sequences: seq<seq<Measurement>>)
  {
    forall i, j :: 0 <= i < |sequences| && 0 <= j < |sequences[i]| ==> sequences[i][j].mean.Some?
  }

  /** `accumulate_counter_data(measurements)`: the table of summed means per
      PAPI counter. It always holds exactly the eleven counters, each total
      list at most as long as the first sequence. An empty input raises
      IndexError at `measurements[0]`. */
  function AccumulateCounterData(sequences: seq<seq<Measurement>>): (r: Result<CounterData>)
    ensures |sequences| == 0 ==> r == Err(IndexError)
    ensures (exists i :: 0 <= i < |sequences| && |sequences[i]| == 0) ==> r.Err?
    ensures r.Err? ==> r.error in {IndexError, AttributeError}
    ensures r.Ok? ==> r.value.Keys == set k | k in CounterNames
    ensures r.Ok? ==> forall k :: k in r.value ==> |r.value[k]| <= |sequences[0]|
  {
    if |sequences| == 0 then Err(IndexError)
    else Accumulate(InitialCounterData(|sequences[0]|), sequences)
  }

  /** Reference definition: the sum of the `j`-th means of the sequences that
      measure counter `name`. */
  function SumOfMeans(sequences: seq<seq<Measurement>>, name: string, j: nat): real
    requires forall i :: 0 <= i < |sequences| ==> j < |sequences[i]|
    requires HasMeans(sequences)
  {
    if |sequences| == 0 then 0.0
    else
      (if MetricName(sequences[0]) == name then sequences[0][j].mean.value else 0.0)
      + SumOfMeans(sequences[1..], name, j)
  }

  /** One loop iteration over a sequence with means everywhere, at least as
      long as every total list, adds its means to its counter's totals. */
  lemma AddSequenceAdds(data: CounterData, s: seq<Measurement>)
    requires |s| > 0
    requires forall j :: 0 <= j < |s| ==> s[j].mean.Some?
    requires forall k :: k in data ==> |data[k]| <= |s|
    ensures AddSequence(data, s).Ok?
    ensures var d := AddSequence(data, s).value;
            forall k :: k in data ==> |d[k]| == |data[k]|
    ensures var d := AddSequence(data, s).value;
            forall k, j :: k in data && 0 <= j < |data[k]| ==>
              d[k][j] == data[k][j] + (if MetricName(s) == k then s[j].mean.value else 0.0)
  {
  }

  /** With means everywhere and every sequence at least as long as the
      totals, the loop succeeds, keeps every total list's length and adds to
      each position the matching sequences' means. */
  lemma {:induction false} AccumulateSums(data: CounterData, sequences: seq<seq<Measurement>>)
    requires HasMeans(sequences)
    requires forall i, k :: 0 <= i < |sequences| && k in data ==> |data[k]| <= |sequences[i]|
    requires forall i :: 0 <= i < |sequences| ==> |sequences[i]| > 0
    ensures Accumulate(data, sequences).Ok?
    ensures var r := Accumulate(data, sequences).value;
            forall k :: k in data ==> |r[k]| == |data[k]|
    ensures var r := Accumulate(data, sequences).value;
            forall k, j :: k in data && 0 <= j < |data[k]| ==>
              r[k][j] == data[k][j] + SumOfMeans(sequences, k, j)
  {
    if |sequences| > 0 {
      var s := sequences[0];
      var rest := sequences[1..];
      assert forall i :: 1 <= i < |sequences| ==> sequences[i] == rest[i - 1];
      AddSequenceAdds(data, s);
      var data' := AddSequence(data, s).value;
      AccumulateSums(data', rest);
      forall k, j | k in data && 0 <= j < |data[k]|
        ensures SumOfMeans(sequences, k, j)
                == (if MetricName(s) == k then s[j].mean.value else 0.0) + SumOfMeans(rest, k, j)
      {
      }
    }
  }

  /** For sequences of one common length, entry `j` of a counter's totals is
      the sum of the `j`-th means of that counter's sequences; a counter no
      sequence measures stays all zeros. */
  lemma CounterTotals(sequences: seq<seq<Measurement>>, n: nat)
    requires |sequences| > 0 && n > 0
    requires forall i :: 0 <= i < |sequences| ==> |sequences[i]| == n
    requires HasMeans(sequences)
    ensures AccumulateCounterData(sequences).Ok?
    ensures var r := AccumulateCounterData(sequences).value;
            forall k, j :: k in CounterNames && 0 <= j < n ==>
              |r[k]| == n && r[k][j] == SumOfMeans(sequences, k, j)
    ensures var r := AccumulateCounterData(sequences).value;
            forall k :: k in CounterNames && (forall i :: 0 <= i < |sequences| ==> MetricName(sequences[i]) != k) ==>
              r[k] == Zeros(n)
  {
    var data := InitialCounterData(n);
    AccumulateSums(data, sequences);
    var r := AccumulateCounterData(sequences).value;
    forall k | k in CounterNames && (forall i :: 0 <= i < |sequences| ==> MetricName(sequences[i]) != k)
      ensures r[k] == Zeros(n)
    {
      forall j | 0 <= j < n
        ensures r[k][j] == 0.0
      {
        SumOfUnmatched(sequences, k, j);
      }
    }
  }

  /** Counters that no sequence measures contribute nothing. */
  lemma {:induction false} SumOfUnmatched(sequences: seq<seq<Measurement>>, name: string, j: nat)
    requires forall i :: 0 <= i < |sequences| ==> j < |sequences[i]|
    requires HasMeans(sequences)
    requires forall i :: 0 <= i < |sequences| ==> MetricName(sequences[i]) != name
    ensures SumOfMeans(sequences, name, j) == 0.0
  {
    if |sequences| > 0 {
      assert forall i :: 1 <= i < |sequences| ==> sequences[i] == sequences[1..][i - 1];
      SumOfUnmatched(sequences[1..], name, j);
    }
  }

  /** Reference definition: the starting length cut down by every sequence of
      counter `name`. */
  function TruncatedLength(n: nat, sequences: seq<seq<Measurement>>, name: string): nat
    requires forall i :: 0 <= i < |sequences| ==> |sequences[i]| > 0
  {
    if |sequences| == 0 then n
    else if MetricName(sequences[0]) == name
    then TruncatedLength(MinNat(n, |sequences[0]|), sequences[1..], name)
    else TruncatedLength(n, sequences[1..], name)
  }

  /** The total list of each counter ends as long as the shortest of the
      first sequence and that counter's sequences: `zip` only ever shortens. */
  lemma {:induction false} AccumulateLengths(data: CounterData, sequences: seq<seq<Measurement>>)
    requires HasMeans(sequences)
    requires forall i :: 0 <= i < |sequences| ==> |sequences[i]| > 0
    ensures Accumulate(data, sequences).Ok?
    ensures var r := Accumulate(data, sequences).value;
            forall k :: k in data ==> |r[k]| == TruncatedLength(|data[k]|, sequences, k)
  {
    if |sequences| > 0 {
      var s := sequences[0];
      var rest := sequences[1..];
      assert forall i :: 1 <= i < |sequences| ==> sequences[i] == rest[i - 1];
      var name := MetricName(s);
      var data' := data;
      if name in data {
        var totals := AddMeans(data[name], s);
        assert totals.Ok?;
        data' := data[name := totals.value];
      }
      assert AddSequence(data, s) == Ok(data');
      AccumulateLengths(data', rest);
    }
  }

  // ---------------------------------------------------------------------
  // Grouping by call path

  /** One entry of the dictionary accumulate_callpath_data builds. Python
      dictionaries keep insertion order, so the dictionary is a sequence of
      groups with distinct call paths. */
  datatype Group = Group(callpath: Callpath, sequences: seq<seq<Measurement>>)

  /** `sequence[0].callpath` */
  function CallpathOf(s: seq<Measurement>): Callpath
    requires |s| > 0
  {
    s[0].callpath
  }

  /** The keys of the dictionary, in insertion order. */
  function Keys(groups: seq<Group>): (keys: seq<Callpath>)
    ensures |keys| == |groups|
    ensures forall i :: 0 <= i < |groups| ==> keys[i] == groups[i].callpath
  {
    seq(|groups|, i requires 0 <= i < |groups| => groups[i].callpath)
  }

  /** The position of call path `c` among the groups, if present. */
  function GroupIndex(groups: seq<Group>, c: Callpath): (r: Option<nat>)
    ensures r.Some? ==> r.value < |groups| && groups[r.value].callpath == c
    ensures r.None? ==> forall i :: 0 <= i < |groups| ==> groups[i].callpath != c
  {
    if |groups| == 0 then None
    else if groups[|groups| - 1].callpath == c then Some(|groups| - 1)
    else GroupIndex(groups[..|groups| - 1], c)
  }

  /** One iteration of the loop: append the sequence to its call path's
      group, creating the group at the end if the call path is new. */
  function AddToGroups(groups: seq<Group>, s: seq<Measurement>): seq<Group>
    requires |s| > 0
  {
    match GroupIndex(groups, CallpathOf(s))
    case Some(i) => groups[i := groups[i].(sequences := groups[i].sequences + [s])]
    case None => groups + [Group(CallpathOf(s), [s])]
  }

  /** The loop of accumulate_callpath_data over non-empty sequences. */
  function GroupAll(sequences: seq<seq<Measurement>>): seq<Group>
    requires forall i :: 0 <= i < |sequences| ==> |sequences[i]| > 0
  {
    if |sequences| == 0 then []
    else AddToGroups(GroupAll(sequences[..|sequences| - 1]), sequences[|sequences| - 1])
  }

  /** `accumulate_callpath_data(measurements)`; an empty sequence raises
      IndexError at `sequence[0]`. */
  function AccumulateCallpathData(sequences: seq<seq<Measurement>>): (r: Result<seq<Group>>)
    ensures r.Err? <==> exists i :: 0 <= i < |sequences| && |sequences[i]| == 0
    ensures r.Err? ==> r.error == IndexError
  {
    if exists i :: 0 <= i < |sequences| && |sequences[i]| == 0 then Err(IndexError)
    else Ok(GroupAll(sequences))
  }

  /** Reference definition: the sequences of call path `c`, in input order. */
  function Filter(sequences: seq<seq<Measurement>>, c: Callpath): seq<seq<Measurement>>
    requires forall i :: 0 <= i < |sequences| ==> |sequences[i]| > 0
  {
    if |sequences| == 0 then []
    else
      var last := sequences[|sequences| - 1];
      Filter(sequences[..|sequences| - 1], c) + (if CallpathOf(last) == c then [last] else [])
  }

  /** Reference definition: the distinct call paths of the input, in order of
      first occurrence. */
  function FirstOccurrences(sequences: seq<seq<Measurement>>): seq<Callpath>
    requires forall i :: 0 <= i < |sequences| ==> |sequences[i]| > 0
  {
    if |sequences| == 0 then []
    else
      var keys := FirstOccurrences(sequences[..|sequences| - 1]);
      var c := CallpathOf(sequences[|sequences| - 1]);
      if c in keys then keys else keys + [c]
  }

  /** The number of sequences held by all groups together. */
  function TotalSize(groups: seq<Group>): nat
  {
    if |groups| == 0 then 0
    else TotalSize(groups[..|groups| - 1]) + |groups[|groups| - 1].sequences|
  }

  lemma {:induction false} TotalSizeUpdate(groups: seq<Group>, i: nat, g: Group)
    requires i < |groups|
    ensures TotalSize(groups[i := g]) + |groups[i].sequences| == TotalSize(groups) + |g.sequences|
  {
    var n := |groups|;
    if i < n - 1 {
      assert groups[i := g][..n - 1] == groups[..n - 1][i := g];
      TotalSizeUpdate(groups[..n - 1], i, g);
    } else {
      assert groups[i := g][..n - 1] == groups[..n - 1];
    }
  }

  /** Calling `Filter` on a call path absent from the input gives nothing. */
  lemma {:induction false} FilterAbsent(sequences: seq<seq<Measurement>>, c: Callpath)
    requires forall i :: 0 <= i < |sequences| ==> |sequences[i]| > 0
    requires c !in FirstOccurrences(sequences)
    ensures Filter(sequences, c) == []
  {
    if |sequences| > 0 {
      var init := sequences[..|sequences| - 1];
      var keys := FirstOccurrences(init);
      assert c !in keys;
      FilterAbsent(init, c);
    }
  }

  predicate Distinct(keys: seq<Callpath>)
  {
    forall i, j :: 0 <= i < j < |keys| ==> keys[i] != keys[j]
  }

  /** Each group holds exactly the sequences of its call path, in input order. */
  predicate GroupsMatch(groups: seq<Group>, sequences: seq<seq<Measurement>>)
    requires forall i :: 0 <= i < |sequences| ==> |sequences[i]| > 0
  {
    forall i :: 0 <= i < |groups| ==> groups[i].sequences == Filter(sequences, groups[i].callpath)
  }

  /** The first occurrences are distinct and cover every call path of the
      input. */
  lemma {:induction false} FirstOccurrencesCover(sequences: seq<seq<Measurement>>)
    requires forall i :: 0 <= i < |sequences| ==> |sequences[i]| > 0
    ensures Distinct(FirstOccurrences(sequences))
    ensures forall i :: 0 <= i < |sequences| ==> CallpathOf(sequences[i]) in FirstOccurrences(sequences)
  {
    if |sequences| > 0 {
      var n := |sequences|;
      var init := sequences[..n - 1];
      assert forall i :: 0 <= i < n - 1 ==> init[i] == sequences[i];
      FirstOccurrencesCover(init);
      var keys := FirstOccurrences(init);
      var c := CallpathOf(sequences[n - 1]);
      if c !in keys {
        assert FirstOccurrences(sequences) == keys + [c];
      } else {
        assert FirstOccurrences(sequences) == keys;
      }
      assert forall x :: x in keys ==> x in FirstOccurrences(sequences);
    }
  }

  /** Appending a sequence whose call path already has group `k`. */
  lemma AddToExistingGroup(sequences: seq<seq<Measurement>>, before: seq<Group>, k: nat)
    requires forall i :: 0 <= i < |sequences| ==> |sequences[i]| > 0
    requires |sequences| > 0
    requires var init := sequences[..|sequences| - 1];
             Keys(before) == FirstOccurrences(init) && GroupsMatch(before, init)
    requires Distinct(Keys(before))
    requires k < |before| && before[k].callpath == CallpathOf(sequences[|sequences| - 1])
    ensures var groups := before[k := before[k].(sequences := before[k].sequences + [sequences[|sequences| - 1]])];
            Keys(groups) == Keys(before) && GroupsMatch(groups, sequences)
  {
    var last := sequences[|sequences| - 1];
    var groups := before[k := before[k].(sequences := before[k].sequences + [last])];
    assert Keys(groups) == Keys(before);
    forall i | 0 <= i < |groups|
      ensures groups[i].sequences == Filter(sequences, groups[i].callpath)
    {
      if i != k {
        assert Keys(before)[i] != Keys(before)[k];
      }
    }
  }

  /** Appending a sequence whose call path has no group yet. */
  lemma AddNewGroup(sequences: seq<seq<Measurement>>, before: seq<Group>)
    requires forall i :: 0 <= i < |sequences| ==> |sequences[i]| > 0
    requires |sequences| > 0
    requires var init := sequences[..|sequences| - 1];
             Keys(before) == FirstOccurrences(init) && GroupsMatch(before, init)
    requires forall i :: 0 <= i < |before| ==> before[i].callpath != CallpathOf(sequences[|sequences| - 1])
    ensures var last := sequences[|sequences| - 1];
            var groups := before + [Group(CallpathOf(last), [last])];
            Keys(groups) == Keys(before) + [CallpathOf(last)] && GroupsMatch(groups, sequences)
  {
    var init := sequences[..|sequences| - 1];
    var last := sequences[|sequences| - 1];
    var c := CallpathOf(last);
    assert c !in Keys(before);
    FilterAbsent(init, c);
    var groups := before + [Group(c, [last])];
    assert Keys(groups) == Keys(before) + [c];
  }

  /** Every sequence of the input lies in exactly one group, the one of its
      call path, in input order; groups appear in order of first occurrence
      of their call path and hold all sequences between them. */
  lemma {:induction false} GroupAllCorrect(sequences: seq<seq<Measurement>>)
    requires forall i :: 0 <= i < |sequences| ==> |sequences[i]| > 0
    ensures Keys(GroupAll(sequences)) == FirstOccurrences(sequences)
    ensures GroupsMatch(GroupAll(sequences), sequences)
    ensures TotalSize(GroupAll(sequences)) == |sequences|
  {
    if |sequences| > 0 {
      var n := |sequences|;
      var init := sequences[..n - 1];
      var last := sequences[n - 1];
      var c := CallpathOf(last);
      assert forall i :: 0 <= i < n - 1 ==> init[i] == sequences[i];
      GroupAllCorrect(init);
      FirstOccurrencesCover(init);
      var before := GroupAll(init);
      var groups := GroupAll(sequences);
      assert groups == AddToGroups(before, last);
      var found := GroupIndex(before, c);
      if found.Some? {
        var k := found.value;
        AddToExistingGroup(sequences, before, k);
        TotalSizeUpdate(before, k, groups[k]);
      } else {
        AddNewGroup(sequences, before);
        assert groups[..|groups| - 1] == before;
      }
    }
  }

  /** accumulate_callpath_data on non-empty sequences: keys are the distinct
      call paths in order of first occurrence, each group holds exactly its
      call path's sequences in input order, and the group sizes add up to the
      number of input sequences. */
  lemma CallpathGrouping(sequences: seq<seq<Measurement>>)
    requires forall i :: 0 <= i < |sequences| ==> |sequences[i]| > 0
    ensures AccumulateCallpathData(sequences).Ok?
    ensures var groups := AccumulateCallpathData(sequences).value;
            && Keys(groups) == FirstOccurrences(sequences)
            && (forall i, j :: 0 <= i < j < |groups| ==> groups[i].callpath != groups[j].callpath)
            && (forall i :: 0 <= i < |groups| ==> groups[i].sequences == Filter(sequences, groups[i].callpath))
            && (forall i :: 0 <= i < |sequences| ==>
                  exists g :: 0 <= g < |groups| && groups[g].callpath == CallpathOf(sequences[i]))
            && TotalSize(groups) == |sequences|
  {
    GroupAllCorrect(sequences);
    FirstOccurrencesCover(sequences);
    var groups := GroupAll(sequences);
    var keys := Keys(groups);
    forall i | 0 <= i < |sequences|
      ensures exists g :: 0 <= g < |groups| && groups[g].callpath == CallpathOf(sequences[i])
    {
      var c := CallpathOf(sequences[i]);
      assert c in keys;
      var g :| 0 <= g < |keys| && keys[g] == c;
      assert groups[g].callpath == c;
    }
  }
}

=== FILE: measurements.dfy ===
/** Measurements (extrap/entities/measurement.py): the summary statistics of
    the repeated samples taken for one (coordinate, call path, metric).

    A Python Measurement gains its statistic attributes only when it is built
    from sample values; one built with `values=None` (as deserialisation does)
    has none until a setter adds them. Each statistic is therefore an
    `Option`, and reading a missing one raises AttributeError. */
module Measurements {
  import opened Wrappers
  import opened Metrics
  import opened Statistics

  /** A point in parameter space: one value per scaling parameter, compared
      componentwise. */
  type Coordinate = seq<real>

  /** A call path, identified by its name. */
  datatype Callpath = Callpath(name: string)

  datatype Measurement = Measurement(
    coordinate: Coordinate,
    callpath: Callpath,
    metric: Metric,
    median: Option<real>,
    mean: Option<real>,
    minimum: Option<real>,
    maximum: Option<real>)

  /** `Measurement(coordinate, callpath, metric, values)`. With `None` only the
      three identifying fields are stored. With samples, the median, mean,
      minimum and maximum are computed; an empty sample list makes numpy's
      minimum raise ValueError. */
  function NewMeasurement(coordinate: Coordinate, callpath: Callpath, metric: Metric,
                          values: Option<seq<real>>): (r: Result<Measurement>)
    ensures r.Ok? ==>
              && r.value.coordinate == coordinate
              && r.value.callpath == callpath
              && r.value.metric == metric
    ensures values.None? ==>
              && r.Ok?
              && r.value.median.None? && r.value.mean.None?
              && r.value.minimum.None? && r.value.maximum.None?
    ensures values.Some? ==> (r.Err? <==> |values.value| == 0)
    ensures r.Err? ==> r.error == ValueError
    ensures values.Some? && r.Ok? ==>
              var m := r.value;
              && m.median.Some? && m.mean.Some? && m.minimum.Some? && m.maximum.Some?
              && m.minimum.value <= m.median.value <= m.maximum.value
              && m.minimum.value <= m.mean.value <= m.maximum.value
              && (forall i :: 0 <= i < |values.value| ==>
                    m.minimum.value <= values.value[i] <= m.maximum.value)
              && (exists i :: 0 <= i < |values.value| && values.value[i] == m.minimum.value)
              && (exists i :: 0 <= i < |values.value| && values.value[i] == m.maximum.value)
  {
    match values
    case None => Ok(Measurement(coordinate, callpath, metric, None, None, None, None))
    case Some(samples) =>
      if |samples| == 0 then Err(ValueError)
      else
        Ok(Measurement(coordinate, callpath, metric,
                       Some(Median(samples)), Some(Mean(samples)),
                       Some(Min(samples)), Some(Max(samples))))
  }

  /** `value(use_median)`: the median or the mean. */
  function Value(m: Measurement, useMedian: bool): (r: Result<real>)
    ensures useMedian ==> (r.Ok? <==> m.median.Some?) && (r.Ok? ==> Some(r.value) == m.median)
    ensures !useMedian ==> (r.Ok? <==> m.mean.Some?) && (r.Ok? ==> Some(r.value) == m.mean)
    ensures r.Err? ==> r.error == AttributeError
  {
    var stat := if useMedian then m.median else m.mean;
    match stat
    case Some(v) => Ok(v)
    case None => Err(AttributeError)
  }

  /** A Measurement built from samples yields their median for
      `value(True)` and their mean for `value(False)`; with a single sample,
      or identical ones, every statistic is that sample. */
  lemma ValueOfNewMeasurement(coordinate: Coordinate, callpath: Callpath, metric: Metric,
                              samples: seq<real>)
    requires |samples| > 0
    ensures var m := NewMeasurement(coordinate, callpath, metric, Some(samples)).value;
            && Value(m, true) == Ok(Median(samples))
            && Value(m, false) == Ok(Mean(samples))
    ensures (forall i :: 0 <= i < |samples| ==> samples[i] == samples[0]) ==>
              NewMeasurement(coordinate, callpath, metric, Some(samples)).value
              == Measurement(coordinate, callpath, metric,
                             Some(samples[0]), Some(samples[0]), Some(samples[0]), Some(samples[0]))
  {
    if forall i :: 0 <= i < |samples| ==> samples[i] == samples[0] {
      ConstantSamples(samples, samples[0]);
    }
  }

  /** `set_value_mean(v)` */
  function SetValueMean(m: Measurement, v: real): (r: Measurement)
    ensures r.mean == Some(v)
    ensures r.(mean := m.mean) == m
  {
    m.(mean := Some(v))
  }

  /** `set_value_median(v)` */
  function SetValueMedian(m: Measurement, v: real): (r: Measurement)
    ensures r.median == Some(v)
    ensures r.(median := m.median) == m
  {
    m.(median := Some(v))
  }

  /** A setter changes what `value` reports for its own statistic only. */
  lemma SettersAndValue(m: Measurement, v: real)
    ensures Value(SetValueMean(m, v), false) == Ok(v)
    ensures Value(SetValueMean(m, v), true) == Value(m, true)
    ensures Value(SetValueMedian(m, v), true) == Ok(v)
    ensures Value(SetValueMedian(m, v), false) == Value(m, false)
  {
  }

  /** The other operand of `==`: a Measurement or an object of another class. */
  datatype MeasurementOrOther = AMeasurement(measurement: Measurement) | NotAMeasurement

  /** `self == other`. `identical` stands for Python's `self is other`.
      The fields are compared in the source's order and Python's `and` stops
      at the first difference; reading a mean or median that was never set
      raises AttributeError. Minimum and maximum are not compared. */
  function Equals(self: Measurement, other: MeasurementOrOther, identical: bool): (r: Result<bool>)
    requires identical ==> other == AMeasurement(self)
    ensures other.NotAMeasurement? ==> r == Ok(false)
    ensures identical ==> r == Ok(true)
    ensures r == Ok(true) ==>
              && other.AMeasurement?
              && self.coordinate == other.measurement.coordinate
              && self.metric.name == other.measurement.metric.name
              && self.callpath == other.measurement.callpath
              && (identical || (self.mean == other.measurement.mean && self.median == other.measurement.median))
    ensures r.Err? ==> r.error == AttributeError
    ensures r.Err? ==>
              && other.AMeasurement? && !identical
              && self.coordinate == other.measurement.coordinate
              && self.metric.name == other.measurement.metric.name
              && self.callpath == other.measurement.callpath
              && (|| self.mean.None? || other.measurement.mean.None?
                  || (self.mean == other.measurement.mean &&
                      (self.median.None? || other.measurement.median.None?)))
    ensures other.AMeasurement? && !identical
            && self.coordinate == other.measurement.coordinate
            && self.metric.name == other.measurement.metric.name
            && self.callpath == other.measurement.callpath ==>
              && ((self.mean.None? || other.measurement.mean.None?) ==> r == Err(AttributeError))
              && ((self.mean.Some? && self.mean == other.measurement.mean &&
                   (self.median.None? || other.measurement.median.None?)) ==> r == Err(AttributeError))
  {
    match other
    case NotAMeasurement => Ok(false)
    case AMeasurement(o) =>
      if identical then Ok(true)
      else if self.coordinate != o.coordinate then Ok(false)
      else if !Metrics.MetricEquals(self.metric, AMetric(o.metric)) then Ok(false)
      else if self.callpath != o.callpath then Ok(false)
      else if self.mean.None? || o.mean.None? then Err(AttributeError)
      else if self.mean != o.mean then Ok(false)
      else if self.median.None? || o.median.None? then Err(AttributeError)
      else Ok(self.median == o.median)
  }

  /** Measurement equality is reflexive: by identity always, and by value when
      mean and median are set. It is symmetric, and it ignores minimum,
      maximum and the metric's id. */
  lemma EqualsProperties(a: Measurement, b: Measurement, lo: Option<real>, hi: Option<real>, id: nat)
    ensures Equals(a, AMeasurement(a), true) == Ok(true)
    ensures a.mean.Some? && a.median.Some? ==> Equals(a, AMeasurement(a), false) == Ok(true)
    ensures Equals(a, AMeasurement(b), false) == Equals(b, AMeasurement(a), false)
    ensures Equals(a, AMeasurement(b), false)
            == Equals(a, AMeasurement(b.(minimum := lo, maximum := hi, metric := b.metric.(id := id))), false)
  {
  }

  /** Two measurements with all statistics set are equal exactly when
      coordinate, metric name, call path, mean and median agree. */
  lemma EqualsWithStatistics(a: Measurement, b: Measurement)
    requires a.mean.Some? && a.median.Some? && b.mean.Some? && b.median.Some?
    ensures Equals(a, AMeasurement(b), false).Ok?
    ensures Equals(a, AMeasurement(b), false).value <==>
              && a.coordinate == b.coordinate
              && a.metric.name == b.metric.name
              && a.callpath == b.callpath
              && a.mean == b.mean
              && a.median == b.median
  {
  }
}

=== FILE: metrics.dfy ===
/** Metric identity (src/entities/metric.py).

    A Metric is a named measured quantity such as "time" or a hardware
    counter. Each constructed Metric draws its id from a class-wide counter
    (`itertools.count()`); here that counter is a value threaded through every
    construction. Equality and hashing look at the name only. */
module Metrics {

  datatype Metric = Metric(name: string, id: nat)

  /** The state of `Metric.ID_COUNTER`: the id the next Metric receives. */
  datatype IdCounter = IdCounter(next: nat)

  /** The counter as the class body creates it: `itertools.count()` starts at 0. */
  const InitialCounter: IdCounter := IdCounter(0)

  /** Every id issued so far lies below the counter. */
  predicate IssuedBelow(issued: seq<Metric>, counter: IdCounter)
  {
    forall i :: 0 <= i < |issued| ==> issued[i].id < counter.next
  }

  /** Ids strictly increase in order of construction. */
  predicate Increasing(issued: seq<Metric>)
  {
    forall i, j :: 0 <= i < j < |issued| ==> issued[i].id < issued[j].id
  }

  /** `Metric(name)`: stores the name and takes the next id from the counter. */
  function NewMetric(counter: IdCounter, name: string): (r: (Metric, IdCounter))
    ensures r.0.name == name
    ensures counter.next <= r.0.id < r.1.next
    ensures r.0.id == counter.next && r.1.next == counter.next + 1
  {
    (Metric(name, counter.next), IdCounter(counter.next + 1))
  }

  /** A new Metric's id exceeds every id issued before from the same counter,
      and the issued ids stay increasing and below the counter. */
  lemma NewMetricIsFresh(issued: seq<Metric>, counter: IdCounter, name: string)
    requires IssuedBelow(issued, counter) && Increasing(issued)
    ensures var (m, counter') := NewMetric(counter, name);
            && (forall i :: 0 <= i < |issued| ==> issued[i].id < m.id)
            && IssuedBelow(issued + [m], counter')
            && Increasing(issued + [m])
  {
  }

  /** Constructs one Metric per name, in order. */
  function NewMetrics(counter: IdCounter, names: seq<string>): (r: (seq<Metric>, IdCounter))
    ensures |r.0| == |names|
    ensures forall i :: 0 <= i < |names| ==> r.0[i].name == names[i]
    ensures forall i :: 0 <= i < |names| ==> counter.next <= r.0[i].id < r.1.next
    ensures forall i :: 0 <= i < |names| ==> r.0[i].id == counter.next + i
    ensures Increasing(r.0)
    ensures r.1.next == counter.next + |names|
    decreases |names|
  {
    if |names| == 0 then ([], counter)
    else
      var (first, counter') := NewMetric(counter, names[0]);
      var (rest, counter'') := NewMetrics(counter', names[1..]);
      ([first] + rest, counter'')
  }

  /** Metrics constructed from the initial counter are numbered 0, 1, 2, ...
      in order of construction, and the counter then stands at their count. */
  lemma IdsFromInitialCounter(names: seq<string>)
    ensures var (metrics, counter) := NewMetrics(InitialCounter, names);
            && (forall i :: 0 <= i < |metrics| ==> metrics[i].id == i)
            && counter.next == |names|
  {
  }

  /** The other operand of `==`: a Metric or an object of some other class. */
  datatype MetricOrOther = AMetric(metric: Metric) | NotAMetric

  /** `self == other`. Python's `self is other` shortcut is subsumed: an
      object is its own name's holder, so identity implies equal names. */
  function MetricEquals(self: Metric, other: MetricOrOther): bool
  {
    other.AMetric? && self.name == other.metric.name
  }

  /** Equality of Metrics is an equivalence that holds exactly when the names
      agree, whatever the ids; no other object equals a Metric. */
  lemma EqualsIsNameEquality(a: Metric, b: Metric, c: Metric)
    ensures MetricEquals(a, AMetric(b)) <==> a.name == b.name
    ensures forall i: nat, j: nat :: MetricEquals(a, AMetric(b)) == MetricEquals(a.(id := i), AMetric(b.(id := j)))
    ensures MetricEquals(a, AMetric(a))
    ensures MetricEquals(a, AMetric(b)) ==> MetricEquals(b, AMetric(a))
    ensures MetricEquals(a, AMetric(b)) && MetricEquals(b, AMetric(c)) ==> MetricEquals(a, AMetric(c))
    ensures !MetricEquals(a, NotAMetric)
  {
  }

  /** `hash(self)`: the hash of the name. Python salts string hashes per
      process, so the string hash is a parameter. */
  function Hash(self: Metric, stringHash: string -> int): int
  {
    stringHash(self.name)
  }

  /** Equal Metrics hash alike, under every string hash. */
  lemma EqualMetricsHashEqual(a: Metric, b: Metric, stringHash: string -> int)
    requires MetricEquals(a, AMetric(b))
    ensures Hash(a, stringHash) == Hash(b, stringHash)
  {
  }

  /** `str(self)`: the stored name. */
  function Str(self: Metric): string
  {
    self.name
  }

  /** Constructing a Metric and printing it gives back the name; two Metrics
      constructed with one name get different ids yet are equal. */
  lemma StrOfNewMetric(counter: IdCounter, name: string)
    ensures Str(NewMetric(counter, name).0) == name
    ensures var (m1, counter') := NewMetric(counter, name);
            var (m2, _) := NewMetric(counter', name);
            m1.id != m2.id && MetricEquals(m1, AMetric(m2))
  {
  }
}

=== FILE: pystr.dfy ===
/** The handful of Python `str` and `list` operations the call-tree reader
    relies on, with Python's semantics: `str.count`, `str.replace(c, "")`,
    `str.split(sep)`, `str.find`, slicing with negative bounds and
    `list.remove`. Strings are `seq<char>`. */
module PyStr {
  import opened Wrappers

  /** `s.count(c)` for a one-character `c`. */
  function Count(s: string, c: char): (n: nat)
    ensures n <= |s|
    ensures n == 0 <==> c !in s
  {
    if |s| == 0 then 0 else (if s[0] == c then 1 else 0) + Count(s[1..], c)
  }

  lemma {:induction false} CountConcat(a: string, b: string, c: char)
    ensures Count(a + b, c) == Count(a, c) + Count(b, c)
  {
    if |a| == 0 {
      assert a + b == b;
    } else {
      assert (a + b)[1..] == a[1..] + b;
      CountConcat(a[1..], b, c);
    }
  }

  /** `s.replace(c, "")`: every occurrence of `c` deleted, the rest kept in order. */
  function Remove(s: string, c: char): (r: string)
    ensures c !in r
    ensures |r| + Count(s, c) == |s|
    ensures forall x :: x != c ==> (x in r <==> x in s)
  {
    if |s| == 0 then ""
    else if s[0] == c then Remove(s[1..], c)
    else [s[0]] + Remove(s[1..], c)
  }

  /** `sep.join(parts)` for a one-character separator. */
  function Join(parts: seq<string>, sep: char): string
    requires |parts| > 0
  {
    if |parts| == 1 then parts[0] else parts[0] + [sep] + Join(parts[1..], sep)
  }

  /** `s.split(sep)` for a one-character separator: the pieces between
      separators, including empty ones; never an empty list. */
  function Split(s: string, sep: char): (parts: seq<string>)
    ensures |parts| == Count(s, sep) + 1
    ensures forall i :: 0 <= i < |parts| ==> sep !in parts[i]
  {
    if |s| == 0 then [""]
    else
      var rest := Split(s[1..], sep);
      if s[0] == sep then [""] + rest
      else [[s[0]] + rest[0]] + rest[1..]
  }

  /** Joining after a leading empty piece starts with the separator. */
  lemma JoinAfterEmpty(rest: seq<string>, sep: char)
    requires |rest| > 0
    ensures Join([""] + rest, sep) == [sep] + Join(rest, sep)
  {
    var parts := [""] + rest;
    assert parts[0] == "" && parts[1..] == rest;
  }

  /** Joining after extending the first piece by `c` starts with `c`. */
  lemma JoinExtendFirst(c: char, rest: seq<string>, sep: char)
    requires |rest| > 0
    ensures Join([[c] + rest[0]] + rest[1..], sep) == [c] + Join(rest, sep)
  {
    var parts := [[c] + rest[0]] + rest[1..];
    if |rest| > 1 {
      assert parts[1..] == rest[1..];
    }
  }

  /** Splitting and joining again gives back the original string. */
  lemma {:induction false} JoinSplit(s: string, sep: char)
    ensures Join(Split(s, sep), sep) == s
  {
    if |s| > 0 {
      var rest := Split(s[1..], sep);
      JoinSplit(s[1..], sep);
      assert s == [s[0]] + s[1..];
      if s[0] == sep {
        JoinAfterEmpty(rest, sep);
      } else {
        JoinExtendFirst(s[0], rest, sep);
      }
    }
  }

  /** `pat` occurs in `s` starting at index `i`. */
  predicate OccursAt(s: string, pat: string, i: int)
  {
    0 <= i && i + |pat| <= |s| && s[i..i + |pat|] == pat
  }

  function FindFrom(s: string, pat: string, i: nat): (r: int)
    requires i <= |s|
    ensures r == -1 || (i <= r && OccursAt(s, pat, r))
    ensures r == -1 ==> forall k :: i <= k ==> !OccursAt(s, pat, k)
    ensures r != -1 ==> forall k :: i <= k < r ==> !OccursAt(s, pat, k)
    decreases |s| - i
  {
    if i + |pat| > |s| then -1
    else if s[i..i + |pat|] == pat then i
    else if i == |s| then -1
    else FindFrom(s, pat, i + 1)
  }

  /** `s.find(pat)`: the lowest index where `pat` occurs, or -1. */
  function Find(s: string, pat: string): (r: int)
    ensures r == -1 <==> forall k :: !OccursAt(s, pat, k)
    ensures r != -1 ==> OccursAt(s, pat, r) && forall k :: k < r ==> !OccursAt(s, pat, k)
  {
    FindFrom(s, pat, 0)
  }

  /** Python's normalisation of a slice bound `i` against a length `n`:
      negative bounds count from the end, and bounds are clamped to `[0, n]`. */
  function SliceBound(n: nat, i: int): (b: nat)
    ensures b <= n
    ensures 0 <= i <= n ==> b == i
    ensures -(n as int) <= i < 0 ==> b == n + i
    ensures i < -(n as int) ==> b == 0
    ensures n < i ==> b == n
  {
    if i < 0 then (if n + i < 0 then 0 else n + i) else if i > n then n else i
  }

  /** `s[i:]` */
  function SliceFrom(s: string, i: int): string
  {
    s[SliceBound(|s|, i)..]
  }

  /** `s[:i]` */
  function SliceTo(s: string, i: int): string
  {
    s[..SliceBound(|s|, i)]
  }

  /** The first index of `x` in `xs`. */
  function IndexOf<T(==)>(xs: seq<T>, x: T): (i: nat)
    requires x in xs
    ensures i < |xs| && xs[i] == x && x !in xs[..i]
  {
    if xs[0] == x then 0
    else
      var i := IndexOf(xs[1..], x);
      assert xs[1..][..i] == xs[1..i + 1];
      assert xs[..i + 1] == [xs[0]] + xs[1..i + 1];
      i + 1
  }

  /** `r` is `xs` without its first `x`. */
  ghost predicate RemovedFirst<T>(xs: seq<T>, x: T, r: seq<T>)
  {
    exists i :: 0 <= i < |xs| && xs[i] == x && x !in xs[..i] && r == xs[..i] + xs[i + 1..]
  }

  /** `xs.remove(x)`: deletes the first occurrence of `x`, and raises
      ValueError when there is none. */
  function RemoveFirst<T(==)>(xs: seq<T>, x: T): (r: Result<seq<T>>)
    ensures r.Err? <==> x !in xs
    ensures r.Err? ==> r.error == ValueError
    ensures r.Ok? ==> |r.value| == |xs| - 1
    ensures r.Ok? ==> multiset(r.value) == multiset(xs) - multiset{x}
    ensures r.Ok? ==> RemovedFirst(xs, x, r.value)
  {
    if x !in xs then Err(ValueError)
    else
      var i := IndexOf(xs, x);
      assert xs == xs[..i] + [x] + xs[i + 1..];
      assert xs[i] == x && x !in xs[..i];
      Ok(xs[..i] + xs[i + 1..])
  }
}

=== FILE: statistics.dfy ===
/** The numpy reductions a Measurement applies to its samples: median (over a
    sorted copy), mean, minimum and maximum, on exact reals. */
module Statistics {

  predicate Sorted(s: seq<real>)
  {
    forall i, j :: 0 <= i < j < |s| ==> s[i] <= s[j]
  }

  /** An element of a sequence holding the elements of `s` and `x` is `x` or
      an element of `s`. */
  lemma ElementOfInsertion(r: seq<real>, s: seq<real>, x: real, k: nat)
    requires multiset(r) == multiset(s) + multiset{x}
    requires k < |r|
    ensures r[k] == x || exists m :: 0 <= m < |s| && s[m] == r[k]
  {
    assert r[k] in multiset(r);
    if r[k] != x {
      assert r[k] in multiset(s);
    }
  }

  lemma SortedCons(h: real, t: seq<real>)
    requires Sorted(t)
    requires forall k :: 0 <= k < |t| ==> h <= t[k]
    ensures Sorted([h] + t)
  {
    var r := [h] + t;
    forall i, j | 0 <= i < j < |r|
      ensures r[i] <= r[j]
    {
      assert r[j] == t[j - 1];
      if i > 0 {
        assert r[i] == t[i - 1];
      }
    }
  }

  /** Inserts `x` into a sorted sequence. */
  function InsertSorted(x: real, s: seq<real>): (r: seq<real>)
    requires Sorted(s)
    ensures Sorted(r)
    ensures multiset(r) == multiset(s) + multiset{x}
    ensures |r| == |s| + 1
  {
    if |s| == 0 then [x]
    else if x <= s[0] then
      SortedCons(x, s);
      [x] + s
    else
      var tail := s[1..];
      var rest := InsertSorted(x, tail);
      assert s == [s[0]] + tail;
      assert forall k :: 0 <= k < |rest| ==> s[0] <= rest[k] by {
        forall k | 0 <= k < |rest|
          ensures s[0] <= rest[k]
        {
          ElementOfInsertion(rest, tail, x, k);
        }
      }
      SortedCons(s[0], rest);
      assert multiset([s[0]] + rest) == multiset{s[0]} + multiset(rest);
      [s[0]] + rest
  }

  /** The sorted copy of the samples. */
  function Sort(s: seq<real>): (r: seq<real>)
    ensures Sorted(r)
    ensures multiset(r) == multiset(s)
    ensures |r| == |s|
  {
    if |s| == 0 then []
    else
      assert s == [s[0]] + s[1..];
      InsertSorted(s[0], Sort(s[1..]))
  }

  /** Every element of the sorted copy is a sample. */
  lemma SortedElementIsSample(s: seq<real>, k: nat)
    requires k < |s|
    ensures exists i :: 0 <= i < |s| && s[i] == Sort(s)[k]
  {
    var t := Sort(s);
    assert t[k] in multiset(t);
    assert t[k] in multiset(s);
  }

  function Sum(s: seq<real>): real
  {
    if |s| == 0 then 0.0 else s[0] + Sum(s[1..])
  }

  /** `np.min(values)` */
  function Min(s: seq<real>): (r: real)
    requires |s| > 0
    ensures exists i :: 0 <= i < |s| && s[i] == r
    ensures forall i :: 0 <= i < |s| ==> r <= s[i]
  {
    if |s| == 1 then s[0]
    else
      var m := Min(s[1..]);
      assert forall i :: 1 <= i < |s| ==> s[i] == s[1..][i - 1];
      if s[0] <= m then s[0] else m
  }

  /** `np.max(values)` */
  function Max(s: seq<real>): (r: real)
    requires |s| > 0
    ensures exists i :: 0 <= i < |s| && s[i] == r
    ensures forall i :: 0 <= i < |s| ==> s[i] <= r
  {
    if |s| == 1 then s[0]
    else
      var m := Max(s[1..]);
      assert forall i :: 1 <= i < |s| ==> s[i] == s[1..][i - 1];
      if m <= s[0] then s[0] else m
  }

  /** A sum of samples lying between `lo` and `hi` lies between `n * lo` and
      `n * hi`. */
  lemma {:induction false} SumBounds(s: seq<real>, lo: real, hi: real)
    requires forall i :: 0 <= i < |s| ==> lo <= s[i] <= hi
    ensures (|s| as real) * lo <= Sum(s) <= (|s| as real) * hi
  {
    if |s| > 0 {
      assert forall i :: 0 <= i < |s[1..]| ==> s[1..][i] == s[i + 1];
      SumBounds(s[1..], lo, hi);
    }
  }

  lemma DivideBounds(a: real, n: real, lo: real, hi: real)
    requires n > 0.0 && n * lo <= a <= n * hi
    ensures lo <= a / n <= hi
  {
    var q := a / n;
    assert q * n == a;
    assert (q - lo) * n >= 0.0;
    assert (hi - q) * n >= 0.0;
  }

  /** The average of samples between `lo` and `hi` lies between them. */
  lemma MeanOfBounded(s: seq<real>, lo: real, hi: real)
    requires |s| > 0
    requires forall i :: 0 <= i < |s| ==> lo <= s[i] <= hi
    ensures lo <= Sum(s) / (|s| as real) <= hi
  {
    SumBounds(s, lo, hi);
    DivideBounds(Sum(s), |s| as real, lo, hi);
  }

  /** `np.mean(values)` */
  function Mean(s: seq<real>): (r: real)
    requires |s| > 0
    ensures Min(s) <= r <= Max(s)
  {
    MeanOfBounded(s, Min(s), Max(s));
    Sum(s) / (|s| as real)
  }

  /** The middle element of a sorted sequence, or the mean of the two middle
      elements when the count is even. */
  function Middle(t: seq<real>): real
    requires |t| > 0
  {
    var n := |t|;
    if n % 2 == 1 then t[n / 2] else (t[n / 2 - 1] + t[n / 2]) / 2.0
  }

  /** The middle lies between the two middle elements (which coincide for an
      odd count). */
  lemma MiddleBetween(t: seq<real>)
    requires |t| > 0 && Sorted(t)
    ensures t[(|t| - 1) / 2] <= Middle(t) <= t[|t| / 2]
  {
    var n := |t|;
    if n % 2 == 0 {
      assert t[n / 2 - 1] <= t[n / 2];
    }
  }

  /** `np.median(values)`: the middle of the sorted copy. */
  function Median(s: seq<real>): (r: real)
    requires |s| > 0
    ensures Min(s) <= r <= Max(s)
  {
    var t := Sort(s);
    var n := |t|;
    SortedElementIsSample(s, n / 2);
    SortedElementIsSample(s, (n - 1) / 2);
    MiddleBetween(t);
    Middle(t)
  }

  /** Identical samples: every statistic is that one value. */
  lemma {:induction false} ConstantSamples(s: seq<real>, c: real)
    requires |s| > 0
    requires forall i :: 0 <= i < |s| ==> s[i] == c
    ensures Min(s) == c && Max(s) == c && Mean(s) == c && Median(s) == c
  {
    SumBounds(s, c, c);
    var n := |s| as real;
    assert Sum(s) == n * c;
  }

  /** The test "at most `m`". */
  function AtMost(m: real): real -> bool
  {
    y => y <= m
  }

  /** The test "at least `m`". */
  function AtLeast(m: real): real -> bool
  {
    y => y >= m
  }

  /** How many samples satisfy `p`. */
  function CountIf(s: seq<real>, p: real -> bool): (n: nat)
    ensures n <= |s|
  {
    if |s| == 0 then 0 else (if p(s[0]) then 1 else 0) + CountIf(s[1..], p)
  }

  lemma {:induction false} CountIfConcat(a: seq<real>, b: seq<real>, p: real -> bool)
    ensures CountIf(a + b, p) == CountIf(a, p) + CountIf(b, p)
  {
    if |a| == 0 {
      assert a + b == b;
    } else {
      assert (a + b)[1..] == a[1..] + b;
      CountIfConcat(a[1..], b, p);
    }
  }

  lemma MultisetRemoveAt(b: seq<real>, i: nat)
    requires i < |b|
    ensures multiset(b[..i] + b[i + 1..]) == multiset(b) - multiset{b[i]}
  {
    assert b == b[..i] + [b[i]] + b[i + 1..];
  }

  lemma CountIfCons(x: real, s: seq<real>, p: real -> bool)
    ensures CountIf([x] + s, p) == (if p(x) then 1 else 0) + CountIf(s, p)
  {
    var t := [x] + s;
    assert t[0] == x && t[1..] == s;
  }

  /** Counting without the element at index `i`. */
  lemma {:induction false} CountIfRemoveAt(b: seq<real>, i: nat, p: real -> bool)
    requires i < |b|
    ensures CountIf(b, p) == CountIf(b[..i] + b[i + 1..], p) + (if p(b[i]) then 1 else 0)
  {
    var tail := b[1..];
    assert CountIf(b, p) == (if p(b[0]) then 1 else 0) + CountIf(tail, p);
    if i == 0 {
      assert b[..0] + b[1..] == tail;
    } else {
      CountIfRemoveAt(tail, i - 1, p);
      var rest := tail[..i - 1] + tail[i..];
      assert b[..i] + b[i + 1..] == [b[0]] + rest;
      CountIfCons(b[0], rest, p);
      assert tail[i - 1] == b[i];
    }
  }

  /** Counting does not depend on the order of the samples. */
  lemma {:induction false} CountIfPermutation(a: seq<real>, b: seq<real>, p: real -> bool)
    requires multiset(a) == multiset(b)
    ensures CountIf(a, p) == CountIf(b, p)
    decreases |a|
  {
    if |a| == 0 {
      assert |b| == |multiset(b)| == 0;
    } else {
      assert a[0] in multiset(b);
      var i :| 0 <= i < |b| && b[i] == a[0];
      var rest := b[..i] + b[i + 1..];
      CountIfRemoveAt(b, i, p);
      MultisetRemoveAt(b, i);
      assert a == [a[0]] + a[1..];
      assert multiset(a[1..]) == multiset(rest);
      CountIfPermutation(a[1..], rest, p);
    }
  }

  /** A sequence whose first `k` elements satisfy `p` has at least `k` such
      elements. */
  lemma CountIfPrefix(s: seq<real>, k: nat, p: real -> bool)
    requires k <= |s|
    requires forall i :: 0 <= i < k ==> p(s[i])
    ensures CountIf(s, p) >= k
  {
    var front := s[..k];
    assert forall i :: 0 <= i < |front| ==> p(front[i]);
    assert s == front + s[k..];
    CountIfConcat(front, s[k..], p);
    CountIfAll(front, p);
  }

  /** A sequence whose last elements from index `k` on satisfy `p` has at
      least `|s| - k` such elements. */
  lemma CountIfSuffix(s: seq<real>, k: nat, p: real -> bool)
    requires k <= |s|
    requires forall i :: k <= i < |s| ==> p(s[i])
    ensures CountIf(s, p) >= |s| - k
  {
    var back := s[k..];
    assert forall i :: 0 <= i < |back| ==> back[i] == s[k + i];
    assert s == s[..k] + back;
    CountIfConcat(s[..k], back, p);
    CountIfAll(back, p);
  }

  lemma {:induction false} CountIfAll(s: seq<real>, p: real -> bool)
    requires forall i :: 0 <= i < |s| ==> p(s[i])
    ensures CountIf(s, p) == |s|
  {
    if |s| > 0 {
      var tail := s[1..];
      assert forall i :: 0 <= i < |tail| ==> tail[i] == s[i + 1];
      CountIfAll(tail, p);
    }
  }

  /** In a sorted sequence, every element up to index `k` is at most `t[k]`. */
  lemma SortedCountAtMost(t: seq<real>, k: nat, m: real)
    requires Sorted(t) && k < |t| && t[k] <= m
    ensures CountIf(t, AtMost(m)) >= k + 1
  {
    assert forall i :: 0 <= i < k + 1 ==> AtMost(m)(t[i]);
    CountIfPrefix(t, k + 1, AtMost(m));
  }

  /** In a sorted sequence, every element from index `k` on is at least `t[k]`. */
  lemma SortedCountAtLeast(t: seq<real>, k: nat, m: real)
    requires Sorted(t) && k < |t| && m <= t[k]
    ensures CountIf(t, AtLeast(m)) >= |t| - k
  {
    assert forall i :: k <= i < |t| ==> AtLeast(m)(t[i]);
    CountIfSuffix(t, k, AtLeast(m));
  }

  /** The median splits the samples: at least half of them are at most the
      median and at least half are at least the median. */
  lemma MedianSplitsSamples(s: seq<real>)
    requires |s| > 0
    ensures 2 * CountIf(s, AtMost(Median(s))) >= |s|
    ensures 2 * CountIf(s, AtLeast(Median(s))) >= |s|
  {
    var t := Sort(s);
    var m := Median(s);
    MiddleBetween(t);
    SortedCountAtMost(t, (|s| - 1) / 2, m);
    SortedCountAtLeast(t, |s| / 2, m);
    CountIfPermutation(s, t, AtMost(m));
    CountIfPermutation(s, t, AtLeast(m));
  }
}

=== FILE: wrappers.dfy ===
/** Failure-carrying datatypes shared by the model.
    Python exceptions raised by the modelled code become `Err` values of
    `Result`; an optional attribute or search result becomes an `Option`. */
module Wrappers {

  /** An absent or present value. */
  datatype Option<+T> = None | Some(value: T)

  /** The Python exceptions the modelled operations can raise. */
  datatype PyError =
    | ValueError      // list.remove of a missing element, numpy min/max of an empty array
    | IndexError      // indexing an empty list
    | AttributeError  // reading a statistic a Measurement never received
    | RecursionError  // construct_parent recursing without end

  /** The outcome of an operation that may raise. */
  datatype Result<+T> = Ok(value: T) | Err(error: PyError)
}
